=== FILE: README.md ===
# node-oll binding layer, modelled in Dafny

node-oll exposes the `oll` online-learning library to Node.js. Its own logic is
a thin layer between two worlds. On one side is V8, whose values carry only a
runtime type tag. On the other are native C++ classes and the external
`oll_tool::oll` engine. This project models that layer in three parts.

- **The generic class exporter** (`ExportToJS<ExportClass>` in `src/v8.hpp`),
  in modules `Marshal` and `Lifetime`. The class template has one internal
  field. The property getter and setter and the method trampoline check a host
  value's tag against the declared native type (`int`, `double`,
  `std::string`, `bool`, `void`, or any other type, which goes to the
  `custom_*` hooks). They box native results back into host values. Every
  hook (`get`, `set`, `func` and their `custom_*` forms) is a non-const member
  of the instance, so each may change the instance and each may leave a host
  exception pending; the model threads both through every trampoline.
  Each run of `construct` allocates an instance, stores its address in the
  receiver's internal field 0 and registers a weak callback with that same
  address. `destruct` deletes that address. `construct` does not check that it runs as a construct call.
  Calling the class as a function on an object it already built therefore
  puts a second instance in field 0, and the first one stays allocated until
  the object is collected (see Findings). The `ExportToJSIF` base gives
  default hooks that do nothing.
- **The exported class `OllJs<TrainMethod>`** (`src/oll.cc`), in module
  `OllJs`. Its `func` is a dispatcher keyed by method name: `constructor`,
  `save`, `load`, `add` or `test`. It validates argument tags, throws
  TypeErrors, and picks the signed or split `add` overload from the first
  argument's tag. `set<TrainMethod>` and `init` register eight classes (P, AP,
  PA, PA1, PA2, PAK, CW, AL), each with the same four methods.
- **The trainer façade `OLL<TrainMethod>`** (`oll_class.hpp`), in module
  `Trainer`. It prefixes `"+1 "`, `"-1 "` or `"0 "` to the data line. A parse
  failure returns `false` or the score `-1`. A successful `add` calls
  `trainExample` exactly once.

Host values live in module `HostValues`. They form the closed datatype `Int32 |
Num | Str | Bool | Obj | Undefined`, and V8's `Number::New` is modelled by
`FromNumber`. That function picks the Int32 tag exactly when the value is
integral and fits in 32 bits. The engine is module `Engine`: a record of opaque
functions (`parseLine`, `trainExample`, `classify`, `save`, `load`, `setC`,
`setBias`) over an abstract model type. `parseLine` is given the model it is
called on, since the engine's parse is a member function and may read it.
Every façade call returns the list of engine calls it made. The property
"nothing else changes" is stated by `Replay`: the model after an operation equals the old model with the recorded
calls replayed on it.

Some behaviours of the code are worth stating plainly:

- The trampolines have no guard for a finalised object. The model lets the
  host call only reachable objects (`Reachable`), because the collector
  finalises only objects the host can no longer reach.
- `init` writes each export with `target->Set`, so a repeated name would
  replace the earlier class. `init`'s own eight names are proved distinct.
- A setter tag mismatch is only logged, and the assignment is dropped
  (`Rejected`).
- A parse failure is `false` from `add` and `-1` from `test`.

## Model

| member | source | states |
|---|---|---|
| HostValues.FromNumber | src/v8.hpp:293-295 | boxing a double gives a Number whose value is the double; it carries the Int32 tag exactly when the double is integral and within the int32 range |
| Marshal.Set | src/v8.hpp:311-350 | for a well-tagged host value, a typed setter reaches `instance->set` exactly when the declared type takes the value's tag (int takes Int32, double takes non-Int32 Number, string takes String) and forwards the converted value; Boolean, Object and Undefined go to `custom_set` whatever the declared type; every other combination is rejected with the instance unchanged and nothing pending; a reached hook's new instance state and pending exception are what the assignment leaves; at most one hook is reached |
| Marshal.IntegralNumberRejectedForDouble | src/v8.hpp:319-327 | because the Int32 test comes first, an integral number that fits in 32 bits assigned to a `double` property is rejected |
| Marshal.Get | src/v8.hpp:281-302 | an int/double/string getter boxes the instance's value when it holds the declared type, and unboxing the result gives the instance's value back; a value of another type is a `bad_any_cast`; any other declared type returns `custom_get`'s answer; the instance state the getter leaves is kept on every outcome, and its pending exception on every return |
| Marshal.GetThenSetIntOrString | src/v8.hpp:290-346 | writing back what an int or string property read, to the instance as the read left it, hands `instance->set` exactly the value the instance answered |
| Marshal.GetThenSetDouble | src/v8.hpp:293-336 | writing back what a double property read reaches `instance->set` only when the value is not Int32-representable, and then with the same value |
| Marshal.Box | src/v8.hpp:369-384 | results are boxed as Integer for int, Number for double, String for string and Boolean for bool, and unboxing the box gives the native value back |
| Marshal.Func | src/v8.hpp:357-389 | the trampoline runs `instance->func` once and keeps its new state; `void` returns Undefined; int/double/string/bool results are boxed at their declared type and unbox to the instance's answer; a result of another type is a `bad_any_cast`; other declared types return `custom_func`'s answer |
| Marshal.DefaultSetIsNoOp | src/v8.hpp:420-431 | with the `ExportToJSIF` default hooks no assignment changes the instance or leaves an exception pending |
| Marshal.DefaultGet | src/v8.hpp:406-418 | with the default hooks an int property reads 0, a double or string property is a `bad_any_cast`, and other types read Undefined; the instance is unchanged and nothing is pending |
| Marshal.DefaultFunc | src/v8.hpp:433-445 | with the default hooks void and custom methods return Undefined, int methods return 0, and double/string/bool methods are a `bad_any_cast` |
| Marshal.AddVar | src/v8.hpp:219-227 | `add_var` adds or replaces one accessor with its declared type and leaves every other accessor and method alone |
| Marshal.AddFunc | src/v8.hpp:233-240 | `add_func` adds or replaces one prototype method with its declared return type and leaves everything else alone |
| Marshal.TemplateDefaults | src/v8.hpp:219-240 | an unannotated property is a string and an unannotated method returns void |
| Lifetime.Construct | src/v8.hpp:248-259 | on a fresh receiver or on one it built before, construction puts a fresh instance address in internal field 0 and adds a weak callback for it, runs `func("constructor", args)` on the new instance with the original arguments, and keeps any earlier instance of that receiver allocated with its callback pending; every instance stays owed exactly one callback; one instance per reachable object is kept only for a fresh receiver |
| Lifetime.ReconstructKeepsTwoInstances | src/v8.hpp:248-259 | running `construct` again on a reachable object leaves two live instances owned by it, only the new one reachable through internal field 0 |
| Lifetime.ConstructChecked | src/v8.hpp:248-259 | with a construct-call check, a receiver already built is refused with nothing changed, a fresh one is constructed exactly as before, and one instance per reachable object is preserved |
| Lifetime.ReconstructRefused | src/v8.hpp:248-259 | the checked construction refuses exactly the call on an already-built reachable receiver |
| Lifetime.Destruct | src/v8.hpp:266-271 | a weak callback deletes exactly the address it was registered with, retires only that callback, and leaves the object unreachable and every other object as it was |
| Lifetime.DestructKeepsInv | src/v8.hpp:266-271 | the address a pending callback deletes is a live instance (so no double delete), and afterwards every live instance is still owed exactly one pending callback |
| Lifetime.Collect | src/v8.hpp:266-271 | firing distinct pending callbacks of an object, in any order, deletes exactly those addresses and changes no other instance or object |
| Lifetime.CollectLeavesNothing | src/v8.hpp:248-271 | once every pending callback of an object has fired, none of its instances remains, even after repeated construction, every other reachable object's instance is untouched, and the invariant holds |
| Lifetime.ConstructThenDestruct | src/v8.hpp:248-271 | constructing a fresh object and then finalising it leaves the live instances as they were and the object unreachable |
| Lifetime.DestructSparesOthers | src/v8.hpp:266-271 | a weak callback of one object leaves every other reachable object's field-0 instance live and unchanged |
| Lifetime.Invoke | src/v8.hpp:358-362 | a method call finds its instance through internal field 0 (always live for a reachable object), runs the trampoline on it, and changes only that instance |
| Lifetime.AssignProperty | src/v8.hpp:312-349 | a property assignment finds its instance through internal field 0, answers the setter's outcome (hook reached, pending exception), changes only that instance, changes nothing when rejected, and keeps the invariant |
| Lifetime.ReadProperty | src/v8.hpp:282-301 | a property read finds its instance through internal field 0, answers the getter's outcome, stores the state the getter leaves in that instance only, and keeps the invariant |
| Trainer.New | oll_class.hpp:19-23 | the façade's engine model is a default-constructed model given `C` and then `bias`, which default to 1 and 0 |
| Trainer.Save | oll_class.hpp:29-36 | `save` answers false exactly when the engine reports -1, makes one engine call and leaves the model untouched |
| Trainer.Load | oll_class.hpp:42-49 | `load` answers false exactly when the engine reports -1; the model is what the engine's load leaves, with no other engine call |
| Trainer.AddSplit | oll_class.hpp:56-69 | split `add` parses exactly the label prefix (`"+1 "` or `"-1 "`) followed by the data; on failure it answers false with no other engine call; on success it trains once with the façade's tag and the parsed example and answers true |
| Trainer.AddSigned | oll_class.hpp:75-87 | signed `add` parses the data as given; on failure it answers false with no other engine call; on success it trains once with the façade's tag and the parsed example and answers true |
| Trainer.Test | oll_class.hpp:93-105 | `test` parses `"0 "` followed by the data; on failure it answers exactly -1 without calling `classify`; otherwise it answers `classify` of the parsed vector; the model is untouched |
| Trainer.AddTrainsOnceOnSuccess | oll_class.hpp:62-68 | an `add` trains exactly once when it answers true and not at all when it answers false, and a failed `add` leaves the façade unchanged |
| Trainer.SplitIsSigned | oll_class.hpp:56-87 | `add(flag, d)` equals `add("+1 " + d)` or `add("-1 " + d)` in result, engine calls and model |
| Trainer.TestNeverTrains | oll_class.hpp:93-105 | `test` never calls `trainExample` and leaves the façade unchanged |
| Trainer.Serve | oll_class.hpp:29-105 | any single façade call changes the model only through its recorded engine calls, trains once exactly when it is a successful `add`, and answers a score exactly when it is `test` |
| Trainer.Run | oll_class.hpp:29-105 | over any sequence of façade calls the final model is the initial model with all recorded engine calls replayed, and the number of trainings equals the number of successful `add`s |
| Trainer.TestsLeaveTrainer | oll_class.hpp:93-105 | any sequence of `test` calls leaves the façade exactly as it was |
| OllJs.OptionReadsHostNumber | src/oll.cc:25-32 | a constructor option given as a JavaScript number arrives as that number whichever tag V8 gives it; a missing or non-numeric option leaves the default |
| OllJs.OptionWithoutObject | src/oll.cc:25-32 | without an options object as first argument every option keeps its default |
| OllJs.Func | src/oll.cc:20-95 | a TypeError is thrown exactly for the argument tags each method refuses, and then nothing changes and no engine call is made; every answer of save/load/add is a bool and every answer of test a double, matching the registered return types; an unknown name answers int 0 with no effect; the null façade is reached only by a well-typed call before construction; the model changes only through recorded engine calls |
| OllJs.ConstructorOptions | src/oll.cc:24-35 | `constructor` replaces the façade with a new one of the class's method, `C` and `bias` taken from an options object when numeric there and 1 and 0 otherwise, and answers int 0 |
| OllJs.SaveLoadDispatch | src/oll.cc:36-55 | `save`/`load` with a non-string argument throw and answer false without reaching the façade; with a string they answer false exactly when the engine reports -1 |
| OllJs.AddDispatch | src/oll.cc:56-81 | `add` with a string first argument takes the signed overload; with a Boolean followed by a String it takes the split overload; any other pair throws and answers false with no engine call |
| OllJs.AddIgnoresRest | src/oll.cc:59-62 | with a string first argument, `add` ignores every later argument |
| OllJs.SplitAddIsSignedAdd | src/oll.cc:59-80 | from the host, `add(flag, data)` and `add(label + data)` give the same reply, engine calls and model |
| OllJs.TestDispatch | src/oll.cc:82-92 | `test` with a non-string throws and answers -1; with a string it answers the façade score widened to double and never trains |
| OllJs.OllTemplate | src/oll.cc:104-108 | each exported class template has one internal field, no accessors and exactly the methods save, load and add returning bool and test returning double |
| OllJs.RegisterAllExports | src/oll.cc:102-113 | registering distinct names exports each one with its own template and training method and leaves every other export alone |
| OllJs.RegistrationTable | src/oll.cc:119-126 | the registration table has eight entries with no name and no training method repeated |
| OllJs.InitExportsEightClasses | src/oll.cc:118-127 | `init` exports exactly the eight class names, each with the four-method template and its own training method, and leaves other exports alone |
| OllJs.MethodsUnboxAtRegisteredTypes | src/oll.cc:36-108 | each registered method, called through the trampoline at its registered return type on a constructed instance, never hits `bad_any_cast`: the trampoline returns a Boolean for save/load/add and a Number for test, with a TypeError pending exactly when the arguments are refused (and then the host sees the exception) |
| OllJs.RegisteredCallsUnbox | src/oll.cc:104-127 | every method of every class `init` exports unboxes at its registered type on a constructed instance |
| OllJs.ConstructionOwnsTrainer | src/v8.hpp:248-259 | constructing an `OllJs` object through the exporter, on a fresh receiver or again on a built one, always leaves a constructed façade of the class's training method in internal field 0 |
| OllJs.InvokeRegisteredReturns | src/v8.hpp:357-389 | on a bridge whose live instances are all constructed, a registered method called on a reachable object makes the trampoline return (no `bad_any_cast`, no fault), with a TypeError pending exactly when the arguments are refused, and keeps every instance constructed |
| OllJs.LifecycleKeepsConstructed | src/v8.hpp:248-271 | construction as written or checked, and every weak callback, keep every live `OllJs` instance constructed |

## Left out

- The `JavaScript` class in `src/v8.hpp` (context setup, script compilation, reading script files, calling script functions) is runtime plumbing and I/O, so it is not modelled.
- The engine `oll_tool::oll` is not part of this model. `parseLine`, `trainExample`, `classify`, `save`, `load`, `setC` and `setBias` are opaque functions of an `Engine` record. No line grammar and no update rule are assumed. `parseLine` and `classify` may read the model they are called on but are taken not to change it, and `save` is taken to leave it unchanged.
- `getErrorLog` and every write to stderr (including the setter's mismatch messages and the `ExportToJSIF` "not overridden" messages) are left out. They are logging only. The setter's diagnostic appears only as which `Mismatch` was rejected.
- A thrown V8 TypeError is only the flag `threw`. The exception object and its message text are not modelled.
- Floating point is modelled with reals. `static_cast<float>` of `C` and `bias`, the float score of `test` and its widening to double do no rounding. NaN, infinities and negative zero do not exist. `-1` stands for the sentinel.
- JavaScript `null`, symbols and the other object kinds are not separate tags. Every path that inspects them treats them like `Undefined` or `Obj`.
- Property getters on option objects are not modelled. `obj->Get(key)` reads a plain field map.
- `String::Utf8Value` conversion is the identity on strings. No encoding is modelled. C-string conversions, including `String::New(s.c_str())` and `std::string(*utf8)`, truncate at the first NUL character; this is not modelled.
- Marshal.Box: for a string holding a NUL character the host receives only the part before it (`String::New(result.c_str())`), so the unboxing round trip is stated only for strings without NUL.
- Marshal.Get: the same truncation applies to string properties (`String::New(....c_str())`); it is not modelled.
- Marshal.GetThenSetIntOrString: the setter's `std::string(*utf8_str)` also truncates at a NUL, so for such strings the write-back is not the instance's value; it is not modelled.
- OllJs.Func: file names and data lines reach the façade through `*filename` and `*data`, truncated at a NUL; this is not modelled.
- Lifetime.Invoke: the trampolines (and likewise Lifetime.AssignProperty and Lifetime.ReadProperty) take internal field 0 of whatever receiver they are called on, with no signature check. A receiver from another exported class (`P.prototype.add.call(new PA(), ...)`) would be cast to the wrong instance type, and one without internal fields (`P.prototype.test(...)`) is undefined behaviour; the model covers only receivers the same class built.
- Lifetime.Construct: a receiver without an internal field (`P.call({})`) is undefined behaviour in `SetInternalField(0, ...)` and is not modelled. Nor is a receiver that another exported class built (`P.call(new PA(), {})`). There, field 0 is overwritten with an `OllJs<P_s>*` while the `PA` instance stays allocated with its own callback pending, and `PA`'s trampolines then cast the `P` instance to the wrong type. The model keeps one bridge per class, so such a receiver looks fresh to it.
- The method name the trampoline passes to `func` is taken to be the name the method was registered under (`args.Callee()->GetName()`).
- GC timing is not modelled. The collector is a caller that fires each pending weak callback of an object once, in an order it chooses (`Collect`). The allocator's fresh address and the receiver are parameters of `Construct`.
- Marshal.Hooks: only `func` may end in undefined behaviour (`Fault`), which is how the null façade of `OllJs::func` is modelled. The accessor hooks of an exported class are taken always to return, since the only class exported here inherits the stubs.
- A C++ exception escaping a trampoline (`bad_any_cast`) and undefined behaviour (null façade dereference) are terminal outcomes. What V8 or the process does next is not modelled.
- `oll.js` (a random-data demo) and `test/test.js` (save/load through files and a child process) are not modelled. They depend on the engine, randomness and file I/O.

## Findings

| source | as written | input that shows it | evidently intended | confidence | as-written member | corrected member |
|---|---|---|---|---|---|---|
| src/v8.hpp:248-259 | `construct` never checks `args.IsConstructCall()`, so calling the class as a function on an object it built stores a second instance in internal field 0 and registers a second weak callback | `var o = new P(); P.call(o, {C: 2});` leaves `o` owning two live `OllJs` instances, only the second reachable | a non-construct call is refused, so each reachable object owns exactly one instance | medium, not executed | Lifetime.ReconstructKeepsTwoInstances | Lifetime.ConstructChecked |

Both instances are still deleted once the object is collected (`Lifetime.CollectLeavesNothing`), so the earlier one is held longer than needed but not leaked for good.

=== FILE: engine.dfy ===
/** The external online-learning engine (`oll_tool::oll`) seen only at its
    interface: its operations are opaque functions, and every call the façade
    makes is recorded so that properties can speak about which calls happen. */
module Engine {

  /** The training method tag the façade is instantiated with (`oll_tool::P_s`,
      `AP_s`, `PA_s`, `PA1_s`, `PA2_s`, `PAK_s`, `CW_s`, `AL_s`). */
  datatype TrainMethod = P | AP | PA | PA1 | PA2 | PAK | CW | AL

  /** What `parseLine(text, fv, y)` reports: its status (-1 means failure) and
      the feature vector and label it wrote. Being a member of the engine
      object, the parse may read the model it is called on (its bias, say). */
  datatype Parsed<FV> = Parsed(status: int, fv: FV, y: int)

  /** The engine's operations over a model of type `M` and feature vectors of
      type `FV`. `empty` is a default-constructed model. `save` reports a status
      only; `load` yields the model it leaves behind together with a status. */
  datatype Engine<!M, !FV> = Engine(
    empty: M,
    setC: (M, real) -> M,
    setBias: (M, real) -> M,
    save: (M, string) -> int,
    load: (M, string) -> (M, int),
    parseLine: (M, string) -> Parsed<FV>,
    trainExample: (M, TrainMethod, FV, int) -> M,
    classify: (M, FV) -> real)

  /** One call into the engine. */
  datatype Call<FV> =
    | SetC(c: real)
    | SetBias(bias: real)
    | SaveTo(path: string)
    | LoadFrom(path: string)
    | ParseLine(text: string)
    | TrainExample(tag: TrainMethod, fv: FV, y: int)
    | Classify(fv: FV)

  /** The calls that can change the model. */
  predicate Mutating<FV>(c: Call<FV>) {
    c.SetC? || c.SetBias? || c.LoadFrom? || c.TrainExample?
  }

  /** The model after one call. */
  function Apply<M, FV>(e: Engine<M, FV>, m: M, c: Call<FV>): (r: M)
    ensures !Mutating(c) ==> r == m
  {
    match c
    case SetC(v) => e.setC(m, v)
    case SetBias(v) => e.setBias(m, v)
    case LoadFrom(path) => e.load(m, path).0
    case TrainExample(tag, fv, y) => e.trainExample(m, tag, fv, y)
    case _ => m
  }

  /** The model after a sequence of calls, in order. */
  function Replay<M, FV>(e: Engine<M, FV>, m: M, calls: seq<Call<FV>>): M
    decreases |calls|
  {
    if calls == [] then m else Replay(e, Apply(e, m, calls[0]), calls[1..])
  }

  /** How many `trainExample` calls a sequence holds. */
  function Trainings<FV>(calls: seq<Call<FV>>): nat
    decreases |calls|
  {
    if calls == [] then 0
    else (if calls[0].TrainExample? then 1 else 0) + Trainings(calls[1..])
  }

  /** Replaying one call is applying it. */
  lemma ReplaySingle<M, FV>(e: Engine<M, FV>, m: M, c: Call<FV>)
    ensures Replay(e, m, [c]) == Apply(e, m, c)
  {
    assert [c][1..] == [];
  }

  /** Replaying two calls applies them in order. */
  lemma ReplayPair<M, FV>(e: Engine<M, FV>, m: M, c: Call<FV>, d: Call<FV>)
    ensures Replay(e, m, [c, d]) == Apply(e, Apply(e, m, c), d)
  {
    assert [c, d][1..] == [d];
    ReplaySingle(e, Apply(e, m, c), d);
  }

  /** Counting the trainings of one or two calls. */
  lemma TrainingsShort<FV>(c: Call<FV>, d: Call<FV>)
    ensures Trainings([c]) == (if c.TrainExample? then 1 else 0)
    ensures Trainings([c, d]) == (if c.TrainExample? then 1 else 0) + (if d.TrainExample? then 1 else 0)
  {
    assert [c][1..] == [];
    assert [d][1..] == [];
    assert [c, d][1..] == [d];
    assert Trainings([d]) == (if d.TrainExample? then 1 else 0);
  }

  /** Replaying two sequences one after the other is replaying their
      concatenation. */
  lemma {:induction false} ReplayAppend<M, FV>(e: Engine<M, FV>, m: M, a: seq<Call<FV>>, b: seq<Call<FV>>)
    ensures Replay(e, m, a + b) == Replay(e, Replay(e, m, a), b)
    decreases |a|
  {
    if a != [] {
      assert (a + b)[0] == a[0];
      assert (a + b)[1..] == a[1..] + b;
      ReplayAppend(e, Apply(e, m, a[0]), a[1..], b);
    } else {
      assert a + b == b;
    }
  }

  /** Counting trainings distributes over concatenation. */
  lemma {:induction false} TrainingsAppend<FV>(a: seq<Call<FV>>, b: seq<Call<FV>>)
    ensures Trainings(a + b) == Trainings(a) + Trainings(b)
    decreases |a|
  {
    if a != [] {
      assert (a + b)[0] == a[0];
      assert (a + b)[1..] == a[1..] + b;
      TrainingsAppend(a[1..], b);
    } else {
      assert a + b == b;
    }
  }

  /** A sequence without `trainExample` calls counts no trainings. */
  lemma {:induction false} NoTrainings<FV>(calls: seq<Call<FV>>)
    requires forall i :: 0 <= i < |calls| ==> !calls[i].TrainExample?
    ensures Trainings(calls) == 0
    decreases |calls|
  {
    if calls != [] {
      assert !calls[0].TrainExample?;
      NoTrainings(calls[1..]);
    }
  }
}

=== FILE: host.dfy ===
/** Host values as the binding layer sees them: a V8 value observed only through
    its runtime type tag (IsInt32, IsNumber, IsString, IsBoolean, IsObject). */
module HostValues {

  const INT32_MIN: int := -0x8000_0000
  const INT32_MAX: int := 0x7FFF_FFFF

  /** The range of a native `int` and of a V8 Int32 value. */
  type int32 = x: int | INT32_MIN <= x <= INT32_MAX

  /** A dynamically tagged host value. `Num` is a Number that V8 does not tag
      as Int32; `Obj` carries its own enumerable properties. */
  datatype HostVal =
    | Int32(i: int32)
    | Num(x: real)
    | Str(s: string)
    | Bool(b: bool)
    | Obj(fields: map<string, HostVal>)
    | Undefined

  /** `IsNumber` holds of every Int32 value as well as of every other Number. */
  predicate IsNumber(v: HostVal) {
    v.Int32? || v.Num?
  }

  /** A real that V8 stores with the Int32 tag: integral and inside the int32 range. */
  predicate Integral32(x: real) {
    x.Floor as real == x && INT32_MIN <= x.Floor <= INT32_MAX
  }

  /** A Number is tagged Int32 exactly when its value is Int32-representable. */
  predicate WellTagged(v: HostVal) {
    v.Num? ==> !Integral32(v.x)
  }

  /** `NumberValue` of a Number: the value it denotes, whichever tag it carries. */
  function NumberValue(v: HostVal): real
    requires IsNumber(v)
  {
    if v.Int32? then v.i as real else v.x
  }

  /** `Number::New(x)`: boxes a native double, choosing the Int32 tag when the
      value fits. */
  function FromNumber(x: real): (v: HostVal)
    ensures IsNumber(v) && NumberValue(v) == x
    ensures v.Int32? <==> Integral32(x)
    ensures WellTagged(v)
  {
    if Integral32(x) then Int32(x.Floor) else Num(x)
  }

  /** Boxing the value of a well-tagged Number gives back that same Number. */
  lemma FromNumberOfNumberValue(v: HostVal)
    requires IsNumber(v) && WellTagged(v)
    ensures FromNumber(NumberValue(v)) == v
  {
    if v.Int32? {
      assert (v.i as real).Floor == v.i;
    }
  }

  /** `args[i]`: V8 yields Undefined past the last argument. */
  function Arg(args: seq<HostVal>, i: nat): HostVal {
    if i < |args| then args[i] else Undefined
  }

  /** `obj->Get(key)` on an Object: a missing property reads as Undefined. */
  function Field(v: HostVal, key: string): HostVal
    requires v.Obj?
  {
    if key in v.fields then v.fields[key] else Undefined
  }
}

=== FILE: lifetime.dfy ===
/** The instance lifetime bridge of `ExportToJS`: `construct` allocates a native
    instance, stores its address in the receiver's single internal field and
    registers a weak callback carrying the same address; `destruct` is that
    callback. Every accessor and method trampoline reaches the instance through
    internal field 0. `construct` does not check that it runs as a construct
    call, so running it again on an object it already built installs a second
    instance in the same field and a second weak callback. */
module Lifetime {
  import opened HostValues
  import opened Marshal

  /** A native instance address. */
  type Ptr = nat

  /** A host object identity. */
  type ObjId = nat

  /** A host object `construct` has run on: the address in internal field 0,
      the parameters of its weak callbacks that have not fired yet, and whether
      the collector has not yet begun finalising it. */
  datatype Holder = Holder(slot: Ptr, pending: set<Ptr>, alive: bool)

  /** The live native instances by address, and the host objects built so far. */
  datatype Bridge<S> = Bridge(heap: map<Ptr, S>, objects: map<ObjId, Holder>)

  /** The addresses some pending weak callback will delete. */
  ghost function Owed(objects: map<ObjId, Holder>): set<Ptr> {
    set o, q | o in objects && q in objects[o].pending :: q
  }

  /** The addresses owed by the objects other than `o`. */
  ghost function OwedBesides(objects: map<ObjId, Holder>, o: ObjId): set<Ptr> {
    set o2, q | o2 in objects && o2 != o && q in objects[o2].pending :: q
  }

  /** The addresses owed are those of `o` and those of the others. */
  lemma OwedSplit(objects: map<ObjId, Holder>, o: ObjId)
    ensures Owed(objects) == OwedBesides(objects, o) + (if o in objects then objects[o].pending else {})
  {
    forall q | q in Owed(objects)
      ensures q in OwedBesides(objects, o) + (if o in objects then objects[o].pending else {})
    {
      var o2 :| o2 in objects && q in objects[o2].pending;
      if o2 != o {
        assert q in OwedBesides(objects, o);
      }
    }
  }

  /** Replacing the holder of `o` leaves what the others owe unchanged. */
  lemma OwedBesidesUpdate(objects: map<ObjId, Holder>, o: ObjId, h: Holder)
    ensures OwedBesides(objects[o := h], o) == OwedBesides(objects, o)
  {
    var after := objects[o := h];
    forall q | q in OwedBesides(after, o) ensures q in OwedBesides(objects, o) {
      var o2 :| o2 in after && o2 != o && q in after[o2].pending;
      assert after[o2] == objects[o2];
    }
    forall q | q in OwedBesides(objects, o) ensures q in OwedBesides(after, o) {
      var o2 :| o2 in objects && o2 != o && q in objects[o2].pending;
      assert after[o2] == objects[o2];
    }
  }

  /** The addresses owed once the holder of `o` is replaced by `h`. */
  lemma OwedUpdate(objects: map<ObjId, Holder>, o: ObjId, h: Holder)
    ensures Owed(objects[o := h]) == OwedBesides(objects, o) + h.pending
  {
    OwedSplit(objects[o := h], o);
    OwedBesidesUpdate(objects, o, h);
  }

  /** Every instance is deleted by exactly one weak callback: a reachable
      object's field-0 address has a pending callback, no address is pending
      for two objects, and the live instances are exactly the addresses owed,
      so none leaks and none is deleted twice. */
  ghost predicate Inv<S>(b: Bridge<S>) {
    && (forall o | o in b.objects && b.objects[o].alive :: b.objects[o].slot in b.objects[o].pending)
    && (forall o1, o2 | o1 in b.objects && o2 in b.objects && o1 != o2 ::
          b.objects[o1].pending !! b.objects[o2].pending)
    && b.heap.Keys == Owed(b.objects)
  }

  /** One instance per reachable object: its only pending callback is for the
      address in internal field 0. */
  predicate OneInstance<S>(b: Bridge<S>) {
    forall o | o in b.objects && b.objects[o].alive :: b.objects[o].pending == {b.objects[o].slot}
  }

  /** A host object the collector has not begun finalising: the host can still
      reach it. */
  predicate Reachable<S>(b: Bridge<S>, o: ObjId) {
    o in b.objects && b.objects[o].alive
  }

  /** A reachable object's field-0 address is a live instance. */
  lemma ReachableIsLive<S>(b: Bridge<S>, o: ObjId)
    requires Inv(b) && Reachable(b, o)
    ensures b.objects[o].slot in b.heap
  {
    OwedSplit(b.objects, o);
  }

  /** The outcome of `construct`: the bridge afterwards; a fault inside the
      instance's "constructor"; or, for the checked variant only, a refused
      call. */
  datatype Constructed<S> = Constructed(bridge: Bridge<S>) | ConstructFault | Refused

  /** `construct` as written, run with receiver `self`: the allocator hands out
      a fresh address `p` for `new ExportClass()` (whose state is `initial`);
      the address goes to internal field 0 and to a new weak callback, and then
      the instance's `func("constructor", args)` runs with the original
      arguments. The receiver is a fresh object when the host uses `new`, or an
      object built before when the host calls the class as a function on it;
      the instance an earlier construction put in field 0 stays allocated with
      its callback still pending. A fault inside "constructor" is a fault of
      construction. */
  function Construct<S>(b: Bridge<S>, h: Hooks<S>, initial: S, self: ObjId, p: Ptr, args: seq<HostVal>): (r: Constructed<S>)
    requires p !in b.heap
    requires self !in b.objects || Reachable(b, self)
    ensures r.Constructed? <==> h.func(initial, "constructor", args).Invoked?
    ensures r.Constructed? ==> r.bridge.heap == b.heap[p := h.func(initial, "constructor", args).state]
    ensures r.Constructed? ==> Reachable(r.bridge, self) && r.bridge.objects[self].slot == p
    ensures r.Constructed? ==> r.bridge.objects[self].pending
                               == (if self in b.objects then b.objects[self].pending else {}) + {p}
    ensures r.Constructed? ==> forall o | o in b.objects && o != self :: o in r.bridge.objects && r.bridge.objects[o] == b.objects[o]
    ensures r.Constructed? ==> r.bridge.objects.Keys == b.objects.Keys + {self}
    ensures r.Constructed? && Inv(b) ==> Inv(r.bridge)
    ensures r.Constructed? && Inv(b) && OneInstance(b) && self !in b.objects ==> OneInstance(r.bridge)
  {
    var inv := h.func(initial, "constructor", args);
    if inv.Fault? then ConstructFault
    else
      var earlier := if self in b.objects then b.objects[self].pending else {};
      var holder := Holder(p, earlier + {p}, true);
      var r := Bridge(b.heap[p := inv.state], b.objects[self := holder]);
      OwedUpdate(b.objects, self, holder);
      OwedSplit(b.objects, self);
      Constructed(r)
  }

  /** `construct` with the construct-call check a native constructor is
      expected to make: a receiver this class already built is refused and
      nothing changes; a fresh receiver is constructed as before. */
  function ConstructChecked<S>(b: Bridge<S>, h: Hooks<S>, initial: S, self: ObjId, p: Ptr, args: seq<HostVal>): (r: Constructed<S>)
    requires p !in b.heap
    requires self !in b.objects || Reachable(b, self)
    ensures self in b.objects <==> r.Refused?
    ensures self !in b.objects ==> r == Construct(b, h, initial, self, p, args)
    ensures r.Constructed? && Inv(b) && OneInstance(b) ==> Inv(r.bridge) && OneInstance(r.bridge)
  {
    if self in b.objects then Refused else Construct(b, h, initial, self, p, args)
  }

  /** As written, constructing again on a reachable object leaves it owning two
      live instances: the earlier one is still allocated and still owed a
      callback, but no longer reachable through internal field 0. */
  lemma ReconstructKeepsTwoInstances<S>(b: Bridge<S>, h: Hooks<S>, initial: S, self: ObjId, p: Ptr, args: seq<HostVal>)
    requires Inv(b) && Reachable(b, self) && p !in b.heap
    requires Construct(b, h, initial, self, p, args).Constructed?
    ensures var c := Construct(b, h, initial, self, p, args).bridge;
            && b.objects[self].slot != p
            && b.objects[self].slot in c.heap && p in c.heap
            && c.objects[self].slot == p
            && {b.objects[self].slot, p} <= c.objects[self].pending
            && !OneInstance(c)
  {
    ReachableIsLive(b, self);
  }

  /** The checked variant refuses exactly that call. */
  lemma ReconstructRefused<S>(b: Bridge<S>, h: Hooks<S>, initial: S, self: ObjId, p: Ptr, args: seq<HostVal>)
    requires Reachable(b, self) && p !in b.heap
    ensures ConstructChecked(b, h, initial, self, p, args) == Refused
  {
  }

  /** `destruct`, the weak callback registered with address `q` for object
      `o`, fired by the collector once: deletes the instance at `q` and disposes
      that handle. */
  function Destruct<S>(b: Bridge<S>, o: ObjId, q: Ptr): (r: Bridge<S>)
    requires o in b.objects && q in b.objects[o].pending
    ensures r.heap == b.heap - {q}
    ensures r.objects.Keys == b.objects.Keys
    ensures r.objects[o].pending == b.objects[o].pending - {q} && !Reachable(r, o)
    ensures forall o2 | o2 in b.objects && o2 != o :: r.objects[o2] == b.objects[o2]
  {
    var holder := b.objects[o].(pending := b.objects[o].pending - {q}, alive := false);
    Bridge(b.heap - {q}, b.objects[o := holder])
  }

  /** Firing the callback for `q`, which no other object is owed, removes
      exactly `q` from the addresses owed. */
  lemma DestructOwed<S>(b: Bridge<S>, o: ObjId, q: Ptr)
    requires o in b.objects && q in b.objects[o].pending
    requires forall o2 | o2 in b.objects && o2 != o :: q !in b.objects[o2].pending
    ensures Owed(Destruct(b, o, q).objects) == Owed(b.objects) - {q}
  {
    var holder := b.objects[o].(pending := b.objects[o].pending - {q}, alive := false);
    OwedSplit(b.objects, o);
    OwedUpdate(b.objects, o, holder);
  }

  /** The weak callback deletes a live instance (never one deleted before),
      and afterwards every instance is still owed exactly one callback. */
  lemma DestructKeepsInv<S>(b: Bridge<S>, o: ObjId, q: Ptr)
    requires Inv(b) && o in b.objects && q in b.objects[o].pending
    ensures q in b.heap && |Destruct(b, o, q).heap| == |b.heap| - 1
    ensures Inv(Destruct(b, o, q))
  {
    var r := Destruct(b, o, q);
    forall o2 | o2 in b.objects && o2 != o ensures q !in b.objects[o2].pending {
      assert b.objects[o].pending !! b.objects[o2].pending;
    }
    DestructOwed(b, o, q);
    assert q in b.heap;
    forall o1, o2 | o1 in r.objects && o2 in r.objects && o1 != o2
      ensures r.objects[o1].pending !! r.objects[o2].pending
    {
      assert r.objects[o1].pending <= b.objects[o1].pending;
      assert r.objects[o2].pending <= b.objects[o2].pending;
    }
    forall o1 | o1 in r.objects && r.objects[o1].alive
      ensures r.objects[o1].slot in r.objects[o1].pending
    {
      assert o1 != o && r.objects[o1] == b.objects[o1];
    }
  }

  /** The addresses listed in a callback order. */
  function Listed(order: seq<Ptr>): set<Ptr> {
    set i | 0 <= i < |order| :: order[i]
  }

  /** Removing one key and then a set of keys removes their union. */
  lemma RemoveTwice<V>(m: map<Ptr, V>, q: Ptr, keys: set<Ptr>)
    ensures (m - {q}) - keys == m - ({q} + keys)
  {
  }

  /** Adding a fresh key and removing it again gives the map back. */
  lemma AddThenRemove<V>(m: map<Ptr, V>, q: Ptr, v: V)
    requires q !in m
    ensures m[q := v] - {q} == m
  {
  }

  /** Listing a first address and then the rest. */
  lemma ListedCons(order: seq<Ptr>)
    requires order != []
    ensures Listed(order) == {order[0]} + Listed(order[1..])
  {
    var rest := order[1..];
    forall a | a in Listed(order) ensures a in {order[0]} + Listed(rest) {
      var i :| 0 <= i < |order| && order[i] == a;
      if i > 0 { assert rest[i - 1] == a; }
    }
    forall a | a in Listed(rest) ensures a in Listed(order) {
      var i :| 0 <= i < |rest| && rest[i] == a;
      assert order[i + 1] == a;
    }
  }

  /** The collector firing the pending callbacks of `o` listed in `order`, one
      after another. */
  function Collect<S>(b: Bridge<S>, o: ObjId, order: seq<Ptr>): (r: Bridge<S>)
    requires o in b.objects
    requires forall i, j :: 0 <= i < j < |order| ==> order[i] != order[j]
    requires forall i :: 0 <= i < |order| ==> order[i] in b.objects[o].pending
    ensures r.objects.Keys == b.objects.Keys
    ensures r.objects[o].pending == b.objects[o].pending - Listed(order)
    ensures forall o2 | o2 in b.objects && o2 != o :: r.objects[o2] == b.objects[o2]
    ensures order != [] ==> !Reachable(r, o)
    ensures order == [] ==> r == b
    ensures r.heap == b.heap - Listed(order)
    decreases |order|
  {
    if order == [] then b
    else
      var next := Destruct(b, o, order[0]);
      var rest := order[1..];
      assert forall i :: 0 <= i < |rest| ==> rest[i] == order[i + 1];
      assert forall i :: 0 <= i < |rest| ==> rest[i] in next.objects[o].pending;
      ListedCons(order);
      RemoveTwice(b.heap, order[0], Listed(rest));
      var r := Collect(next, o, rest);
      assert r.heap == b.heap - Listed(order);
      assert r.objects[o].pending == b.objects[o].pending - Listed(order);
      r
  }

  /** Firing callbacks keeps the invariant. */
  lemma {:induction false} CollectKeepsInv<S>(b: Bridge<S>, o: ObjId, order: seq<Ptr>)
    requires o in b.objects
    requires forall i, j :: 0 <= i < j < |order| ==> order[i] != order[j]
    requires forall i :: 0 <= i < |order| ==> order[i] in b.objects[o].pending
    ensures Inv(b) ==> Inv(Collect(b, o, order))
    decreases |order|
  {
    if order != [] {
      var next := Destruct(b, o, order[0]);
      var rest := order[1..];
      assert forall i :: 0 <= i < |rest| ==> rest[i] == order[i + 1];
      assert forall i :: 0 <= i < |rest| ==> rest[i] in next.objects[o].pending;
      if Inv(b) {
        DestructKeepsInv(b, o, order[0]);
      }
      CollectKeepsInv(next, o, rest);
    }
  }

  /** Once every pending callback of `o` has fired, none of the instances `o`
      was owed remains, and every other object's instances are untouched: no
      instance is left behind and none is deleted twice. */
  lemma CollectLeavesNothing<S>(b: Bridge<S>, o: ObjId, order: seq<Ptr>)
    requires Inv(b) && o in b.objects
    requires forall i, j :: 0 <= i < j < |order| ==> order[i] != order[j]
    requires forall i :: 0 <= i < |order| ==> order[i] in b.objects[o].pending
    requires forall q | q in b.objects[o].pending :: q in Listed(order)
    ensures Collect(b, o, order).heap.Keys == b.heap.Keys - b.objects[o].pending
    ensures Collect(b, o, order).objects[o].pending == {}
    ensures Inv(Collect(b, o, order))
    ensures forall o2 | Reachable(b, o2) && o2 != o ::
              b.objects[o2].slot in Collect(b, o, order).heap
              && Collect(b, o, order).heap[b.objects[o2].slot] == b.heap[b.objects[o2].slot]
  {
    var r := Collect(b, o, order);
    CollectKeepsInv(b, o, order);
    assert Listed(order) == b.objects[o].pending;
    forall o2 | Reachable(b, o2) && o2 != o
      ensures b.objects[o2].slot in r.heap && r.heap[b.objects[o2].slot] == b.heap[b.objects[o2].slot]
    {
      ReachableIsLive(b, o2);
      assert b.objects[o2].slot !in b.objects[o].pending;
      assert b.objects[o2].slot in r.heap.Keys;
    }
  }

  /** Constructing on a fresh object and then finalising it restores the live
      instances exactly, and the object is no longer reachable. */
  lemma ConstructThenDestruct<S>(b: Bridge<S>, h: Hooks<S>, initial: S, self: ObjId, p: Ptr, args: seq<HostVal>)
    requires Inv(b) && self !in b.objects && p !in b.heap
    requires Construct(b, h, initial, self, p, args).Constructed?
    ensures var c := Construct(b, h, initial, self, p, args).bridge;
            && Reachable(c, self) && c.objects[self].pending == {p}
            && Destruct(c, self, p).heap == b.heap
            && !Reachable(Destruct(c, self, p), self)
  {
    var c := Construct(b, h, initial, self, p, args).bridge;
    AddThenRemove(b.heap, p, h.func(initial, "constructor", args).state);
  }

  /** Finalising one object deletes no instance another reachable object
      holds in its internal field. */
  lemma DestructSparesOthers<S>(b: Bridge<S>, o: ObjId, q: Ptr, o2: ObjId)
    requires Inv(b) && o in b.objects && q in b.objects[o].pending
    requires Reachable(b, o2) && o != o2
    ensures Reachable(Destruct(b, o, q), o2)
    ensures b.objects[o2].slot in Destruct(b, o, q).heap
    ensures Destruct(b, o, q).heap[b.objects[o2].slot] == b.heap[b.objects[o2].slot]
  {
    ReachableIsLive(b, o2);
    assert b.objects[o2].slot in b.objects[o2].pending;
  }

  /** A method call on a reachable object: the trampoline finds the instance
      through internal field 0, runs `func<T>` on it and stores the instance's
      new state, unless the instance faulted. */
  function Invoke<S>(b: Bridge<S>, h: Hooks<S>, t: Declared, o: ObjId, name: string, args: seq<HostVal>): (r: (Bridge<S>, Called<S>))
    requires Inv(b) && Reachable(b, o)
    ensures b.objects[o].slot in b.heap
    ensures r.1 == Func(h, t, b.heap[b.objects[o].slot], name, args)
    ensures r.0.objects == b.objects
    ensures r.1.Faulted? ==> r.0 == b
    ensures !r.1.Faulted? ==> r.0.heap == b.heap[b.objects[o].slot := r.1.state]
    ensures Inv(r.0)
  {
    ReachableIsLive(b, o);
    var p := b.objects[o].slot;
    var c := Func(h, t, b.heap[p], name, args);
    if c.Faulted? then (b, c)
    else
      var r := Bridge(b.heap[p := c.state], b.objects);
      assert r.heap.Keys == b.heap.Keys;
      (r, c)
  }

  /** A property assignment on a reachable object, through internal field 0. */
  function AssignProperty<S>(b: Bridge<S>, h: Hooks<S>, t: Declared, o: ObjId, name: string, v: HostVal): (r: (Bridge<S>, Assigned<S>))
    requires Inv(b) && Reachable(b, o) && WellTagged(v)
    ensures b.objects[o].slot in b.heap
    ensures r.1 == Set(h, t, b.heap[b.objects[o].slot], name, v)
    ensures r.1.hook.Rejected? ==> r.0 == b
    ensures r.0 == Bridge(b.heap[b.objects[o].slot := r.1.state], b.objects)
    ensures Inv(r.0)
  {
    ReachableIsLive(b, o);
    var p := b.objects[o].slot;
    var a := Set(h, t, b.heap[p], name, v);
    var r := Bridge(b.heap[p := a.state], b.objects);
    assert r.heap.Keys == b.heap.Keys;
    (r, a)
  }

  /** A property read on a reachable object, through internal field 0. The
      getter runs on the instance, so the read may change it too. */
  function ReadProperty<S>(b: Bridge<S>, h: Hooks<S>, t: Declared, o: ObjId, name: string): (r: (Bridge<S>, Read<S>))
    requires Inv(b) && Reachable(b, o)
    ensures b.objects[o].slot in b.heap
    ensures r.1 == Get(h, t, b.heap[b.objects[o].slot], name)
    ensures r.0 == Bridge(b.heap[b.objects[o].slot := r.1.state], b.objects)
    ensures Inv(r.0)
  {
    ReachableIsLive(b, o);
    var p := b.objects[o].slot;
    var g := Get(h, t, b.heap[p], name);
    var r := Bridge(b.heap[p := g.state], b.objects);
    assert r.heap.Keys == b.heap.Keys;
    (r, g)
  }
}

=== FILE: marshal.dfy ===
/** The generic class exporter (`ExportToJS<ExportClass>`): the class template it
    builds, and the accessor and method trampolines that check a host value's tag
    against the declared native type before reaching the exported instance. */
module Marshal {
  import opened HostValues

  /** The native type a property or method is declared with (the template
      argument `T` of `add_var<T>` / `add_func<T>`). Every type other than the
      first five is handled by the `custom_*` hooks. */
  datatype Declared = DInt | DDouble | DString | DBool | DVoid | DCustom

  /** A `boost::any` holding one of the native types the trampolines unbox. */
  datatype Any = AnyInt(i: int32) | AnyDouble(x: real) | AnyString(s: string) | AnyBool(b: bool)

  /** `boost::any_cast<T>` succeeds exactly when the held type is `T`. */
  predicate Holds(a: Any, t: Declared) {
    match t
    case DInt => a.AnyInt?
    case DDouble => a.AnyDouble?
    case DString => a.AnyString?
    case DBool => a.AnyBool?
    case _ => false
  }

  /** The declared types the property accessors convert themselves. */
  predicate Scalar(t: Declared) {
    t == DInt || t == DDouble || t == DString
  }

  /** The declared return types the method trampoline boxes itself. */
  predicate Boxable(t: Declared) {
    Scalar(t) || t == DBool
  }

  /** The host tags a boxed value of declared type `t` can carry; a `double`
      may come back tagged Int32. */
  predicate Fits(t: Declared, v: HostVal) {
    match t
    case DInt => v.Int32?
    case DDouble => IsNumber(v)
    case DString => v.Str?
    case DBool => v.Bool?
    case _ => false
  }

  /** The native value a host value denotes when read at declared type `t`:
      the inverse of boxing. */
  function Unbox(t: Declared, v: HostVal): (r: Any)
    requires Fits(t, v)
    ensures Holds(r, t)
  {
    match t
    case DInt => AnyInt(v.i)
    case DDouble => AnyDouble(NumberValue(v))
    case DString => AnyString(v.s)
    case DBool => AnyBool(v.b)
  }

  /** An instance's answer to `func`: its new state, the returned `boost::any`
      and whether it left a host exception pending; or a native fault (undefined
      behaviour inside the instance). */
  datatype Invoked<S> = Invoked(state: S, ret: Any, pending: bool) | Fault

  /** An instance's answer to any other hook: its new state, what it returned
      (`()` for the setters, which return `void`) and whether it left a host
      exception pending. Every hook is a non-const member of the instance, so
      each may change it and each may throw into the host. */
  datatype Answer<S, A> = Answer(state: S, ret: A, pending: bool)

  /** The member functions the trampolines call on the exported instance. */
  datatype Hooks<!S> = Hooks(
    get: (S, string) -> Answer<S, Any>,
    customGet: (S, string) -> Answer<S, HostVal>,
    assign: (S, string, Any) -> Answer<S, ()>,
    customAssign: (S, string, HostVal) -> Answer<S, ()>,
    func: (S, string, seq<HostVal>) -> Invoked<S>,
    customFunc: (S, string, seq<HostVal>) -> Answer<S, HostVal>)

  /** The `ExportToJSIF` base: every hook logs that it is not overridden and
      does nothing else; `get` and `func` answer an `int` 0, the custom getters
      Undefined. */
  function DefaultHooks<S>(): Hooks<S> {
    Hooks(
      (s: S, name: string) => Answer(s, AnyInt(0), false),
      (s: S, name: string) => Answer(s, Undefined, false),
      (s: S, name: string, a: Any) => Answer(s, (), false),
      (s: S, name: string, v: HostVal) => Answer(s, (), false),
      (s: S, name: string, args: seq<HostVal>) => Invoked(s, AnyInt(0), false),
      (s: S, name: string, args: seq<HostVal>) => Answer(s, Undefined, false))
  }

  // ---------------------------------------------------------------------------
  // Property assignment: ExportToJS::set<T>
  // ---------------------------------------------------------------------------

  /** Which diagnostic a rejected assignment logs. */
  datatype Mismatch = IntegerMismatch | NumberMismatch | StringMismatch

  /** Which instance hook one assignment reached, if any. */
  datatype SetHook = CalledSet(native: Any) | CalledCustomSet(host: HostVal) | Rejected(why: Mismatch)

  /** An assignment's outcome: the instance afterwards, the hook reached, and
      whether that hook left a host exception pending. */
  datatype Assigned<S> = Assigned(state: S, hook: SetHook, pending: bool)

  /** The declared-type reading of the setter: a typed setter takes exactly the
      host values of its own tag. */
  predicate Accepts(t: Declared, v: HostVal) {
    match t
    case DInt => v.Int32?
    case DDouble => v.Num?
    case DString => v.Str?
    case _ => false
  }

  /** Host values no typed branch of the setter inspects. */
  predicate Untyped(v: HostVal) {
    !IsNumber(v) && !v.Str?
  }

  /** The setter installed by `add_var<T>`: the Int32 test comes first, then
      Number, then String; a tag that does not match `T` is logged and the
      assignment dropped; every other tag goes to `custom_set`. The value is
      well tagged, as every value V8 hands a setter is: a Number that fits in
      32 bits carries the Int32 tag. */
  function Set<S>(h: Hooks<S>, t: Declared, s: S, name: string, v: HostVal): (r: Assigned<S>)
    requires WellTagged(v)
    ensures r.hook.CalledSet? <==> Accepts(t, v)
    ensures r.hook.CalledCustomSet? <==> Untyped(v)
    ensures r.hook.Rejected? <==> !Untyped(v) && !Accepts(t, v)
    ensures r.hook.CalledSet? ==> r.hook.native == Unbox(t, v)
                                  && r.state == h.assign(s, name, r.hook.native).state
                                  && r.pending == h.assign(s, name, r.hook.native).pending
    ensures r.hook.CalledCustomSet? ==> r.hook.host == v
                                        && r.state == h.customAssign(s, name, v).state
                                        && r.pending == h.customAssign(s, name, v).pending
    ensures r.hook.Rejected? ==> r.state == s && !r.pending
  {
    if v.Int32? then
      if t != DInt then Assigned(s, Rejected(IntegerMismatch), false)
      else Reached(h.assign(s, name, AnyInt(v.i)), CalledSet(AnyInt(v.i)))
    else if v.Num? then
      if t != DDouble then Assigned(s, Rejected(NumberMismatch), false)
      else Reached(h.assign(s, name, AnyDouble(v.x)), CalledSet(AnyDouble(v.x)))
    else if v.Str? then
      if t != DString then Assigned(s, Rejected(StringMismatch), false)
      else Reached(h.assign(s, name, AnyString(v.s)), CalledSet(AnyString(v.s)))
    else
      Reached(h.customAssign(s, name, v), CalledCustomSet(v))
  }

  /** The outcome of an assignment that reached `hook`, which answered `a`. */
  function Reached<S>(a: Answer<S, ()>, hook: SetHook): Assigned<S> {
    Assigned(a.state, hook, a.pending)
  }

  /** Because the Int32 test comes first, assigning an integral number that
      fits in 32 bits to a `double` property is rejected. */
  lemma IntegralNumberRejectedForDouble<S>(h: Hooks<S>, s: S, name: string, x: real)
    requires Integral32(x)
    ensures Set(h, DDouble, s, name, FromNumber(x)) == Assigned(s, Rejected(IntegerMismatch), false)
  {
  }

  // ---------------------------------------------------------------------------
  // Property read: ExportToJS::get<T>
  // ---------------------------------------------------------------------------

  /** The outcome of a property read: a boxed value, the instance's own
      `custom_get` answer (each with any exception the instance left pending),
      or a `bad_any_cast` thrown by `any_cast<T>` after `get` has run. In every
      case `state` is the instance as the getter left it. */
  datatype Read<S> = Boxed(state: S, v: HostVal, pending: bool) | CustomGot(state: S, v: HostVal, pending: bool) | BadCast(state: S)

  /** The getter installed by `add_var<T>`: calls the instance's `get` once
      (or `custom_get` for any other type) and boxes the answer by the
      declared type. */
  function Get<S>(h: Hooks<S>, t: Declared, s: S, name: string): (r: Read<S>)
    ensures r.Boxed? <==> Scalar(t) && Holds(h.get(s, name).ret, t)
    ensures r.BadCast? <==> Scalar(t) && !Holds(h.get(s, name).ret, t)
    ensures r.CustomGot? <==> !Scalar(t)
    ensures Scalar(t) ==> r.state == h.get(s, name).state
    ensures r.Boxed? ==> r.pending == h.get(s, name).pending
    ensures r.CustomGot? ==> r.state == h.customGet(s, name).state
                             && r.v == h.customGet(s, name).ret
                             && r.pending == h.customGet(s, name).pending
    ensures r.Boxed? ==> WellTagged(r.v) && Fits(t, r.v)
    ensures r.Boxed? ==> Unbox(t, r.v) == h.get(s, name).ret
  {
    if Scalar(t) then
      var a := h.get(s, name);
      if Holds(a.ret, t) then Boxed(a.state, Box(t, a.ret), a.pending) else BadCast(a.state)
    else
      var c := h.customGet(s, name);
      CustomGot(c.state, c.ret, c.pending)
  }

  /** Writing back what an `int` or `std::string` property reads, to the
      instance as the read left it, hands the instance exactly the value it
      answered. */
  lemma GetThenSetIntOrString<S>(h: Hooks<S>, t: Declared, s: S, name: string)
    requires t == DInt || t == DString
    requires Get(h, t, s, name).Boxed?
    ensures var g := Get(h, t, s, name);
            Set(h, t, g.state, name, g.v).hook == CalledSet(h.get(s, name).ret)
  {
  }

  /** Writing back what a `double` property reads reaches the instance only when
      the value is not Int32-representable: integral doubles do not survive the
      round trip. */
  lemma GetThenSetDouble<S>(h: Hooks<S>, s: S, name: string)
    requires Get(h, DDouble, s, name).Boxed?
    ensures var g := Get(h, DDouble, s, name);
            var r := Set(h, DDouble, g.state, name, g.v);
            && (r.hook.CalledSet? <==> !Integral32(h.get(s, name).ret.x))
            && (r.hook.CalledSet? ==> r.hook.native == h.get(s, name).ret)
  {
  }

  // ---------------------------------------------------------------------------
  // Method call: ExportToJS::func<T>
  // ---------------------------------------------------------------------------

  /** The outcome of a method call as the host sees it: a boxed result (with
      any exception the instance left pending), a `bad_any_cast` escaping the
      trampoline after the instance has run, or a fault inside the instance. */
  datatype Called<S> = Returned(state: S, v: HostVal, pending: bool) | BadAnyCast(state: S) | Faulted

  /** Boxes a native result at its declared type (`Integer::New`,
      `Number::New`, `String::New`, `Boolean::New`). */
  function Box(t: Declared, a: Any): (v: HostVal)
    requires Boxable(t) && Holds(a, t)
    ensures WellTagged(v) && Fits(t, v)
    ensures Unbox(t, v) == a
  {
    match t
    case DInt => Int32(a.i)
    case DDouble => FromNumber(a.x)
    case DString => Str(a.s)
    case DBool => Bool(a.b)
  }

  /** The method trampoline installed by `add_func<T>`: calls the instance's
      `func` once (or `custom_func` for a custom type) and boxes the answer by
      the declared type; `void` discards it. */
  function Func<S>(h: Hooks<S>, t: Declared, s: S, name: string, args: seq<HostVal>): (r: Called<S>)
    ensures t != DCustom ==> (r.Faulted? <==> h.func(s, name, args).Fault?)
    ensures t == DCustom ==> r.Returned? && r == Returned(h.customFunc(s, name, args).state,
                                                           h.customFunc(s, name, args).ret,
                                                           h.customFunc(s, name, args).pending)
    ensures r.BadAnyCast? <==> Boxable(t) && h.func(s, name, args).Invoked? && !Holds(h.func(s, name, args).ret, t)
    ensures r.BadAnyCast? ==> r.state == h.func(s, name, args).state
    ensures r.Returned? && t != DCustom ==> r.state == h.func(s, name, args).state
                                            && r.pending == h.func(s, name, args).pending
    ensures r.Returned? && t == DVoid ==> r.v == Undefined
    ensures r.Returned? && Boxable(t) ==> WellTagged(r.v) && Fits(t, r.v) && Unbox(t, r.v) == h.func(s, name, args).ret
  {
    if t == DCustom then
      var c := h.customFunc(s, name, args);
      Returned(c.state, c.ret, c.pending)
    else
      var inv := h.func(s, name, args);
      if inv.Fault? then Faulted
      else if t == DVoid then Returned(inv.state, Undefined, inv.pending)
      else if Holds(inv.ret, t) then Returned(inv.state, Box(t, inv.ret), inv.pending)
      else BadAnyCast(inv.state)
  }

  // ---------------------------------------------------------------------------
  // ExportToJSIF defaults
  // ---------------------------------------------------------------------------

  /** With the default hooks no assignment changes the instance or throws. */
  lemma DefaultSetIsNoOp<S>(t: Declared, s: S, name: string, v: HostVal)
    requires WellTagged(v)
    ensures Set(DefaultHooks<S>(), t, s, name, v).state == s
    ensures !Set(DefaultHooks<S>(), t, s, name, v).pending
  {
  }

  /** With the default hooks an `int` property reads 0, a `double` or string
      property throws `bad_any_cast`, and any other reads Undefined. */
  lemma DefaultGet<S>(t: Declared, s: S, name: string)
    ensures t == DInt ==> Get(DefaultHooks<S>(), t, s, name) == Boxed(s, Int32(0), false)
    ensures t == DDouble || t == DString ==> Get(DefaultHooks<S>(), t, s, name) == BadCast(s)
    ensures !Scalar(t) ==> Get(DefaultHooks<S>(), t, s, name) == CustomGot(s, Undefined, false)
  {
  }

  /** With the default hooks only `void`, `int` and custom methods return. */
  lemma DefaultFunc<S>(t: Declared, s: S, name: string, args: seq<HostVal>)
    ensures t == DVoid || t == DCustom ==> Func(DefaultHooks<S>(), t, s, name, args) == Returned(s, Undefined, false)
    ensures t == DInt ==> Func(DefaultHooks<S>(), t, s, name, args) == Returned(s, Int32(0), false)
    ensures t == DDouble || t == DString || t == DBool ==> Func(DefaultHooks<S>(), t, s, name, args) == BadAnyCast(s)
  {
  }

  // ---------------------------------------------------------------------------
  // The class template
  // ---------------------------------------------------------------------------

  /** What `ExportToJS` builds: the class name, the instance template's
      internal field count, the accessors of the instance template and the
      methods of the prototype template, each with its declared type. */
  datatype ClassTemplate = ClassTemplate(
    className: string,
    internalFields: nat,
    accessors: map<string, Declared>,
    methods: map<string, Declared>)

  /** The `ExportToJS(class_name)` constructor: one internal field, no
      accessors, no methods. */
  function NewClass(className: string): ClassTemplate {
    ClassTemplate(className, 1, map[], map[])
  }

  /** `add_var<T>`; `T` defaults to `std::string`. A repeated name replaces the
      earlier accessor. */
  function AddVar(c: ClassTemplate, name: string, t: Declared := DString): (r: ClassTemplate)
    ensures r.accessors.Keys == c.accessors.Keys + {name} && r.accessors[name] == t
    ensures forall n :: n in c.accessors && n != name ==> r.accessors[n] == c.accessors[n]
    ensures r.className == c.className && r.internalFields == c.internalFields && r.methods == c.methods
  {
    c.(accessors := c.accessors[name := t])
  }

  /** `add_func<T>`; `T` defaults to `void`. A repeated name replaces the
      earlier method. */
  function AddFunc(c: ClassTemplate, name: string, t: Declared := DVoid): (r: ClassTemplate)
    ensures r.methods.Keys == c.methods.Keys + {name} && r.methods[name] == t
    ensures forall n :: n in c.methods && n != name ==> r.methods[n] == c.methods[n]
    ensures r.className == c.className && r.internalFields == c.internalFields && r.accessors == c.accessors
  {
    c.(methods := c.methods[name := t])
  }

  /** The template defaults: an unannotated property is a string, an
      unannotated method returns nothing. */
  lemma TemplateDefaults(c: ClassTemplate, name: string)
    ensures AddVar(c, name).accessors[name] == DString
    ensures AddFunc(c, name).methods[name] == DVoid
  {
  }
}

=== FILE: olljs.dfy ===
/** The exported class `OllJs<TrainMethod>`: its name-keyed `func` dispatcher,
    which validates argument tags and calls the trainer façade, and the module
    initialisation that registers one class per training method. */
module OllJs {
  import opened HostValues
  import opened Marshal
  import opened Lifetime
  import opened Engine
  import opened Trainer

  /** The instance's `shared_ptr<OLL<TrainMethod>>`: null until "constructor"
      runs. */
  datatype Slot<M> = Null | Owns(trainer: Trainer<M>)

  /** What `func` answers: the façade pointer afterwards, the returned
      `boost::any`, whether a TypeError was thrown, and the engine calls made;
      or a dereference of the null façade pointer. */
  datatype Reply<M, FV> = Reply(oll: Slot<M>, ret: Any, threw: bool, calls: seq<Call<FV>>) | NullDeref

  /** The method names registered on every class, with the return types they
      are registered with. */
  const MethodTags: map<string, Declared> :=
    map["save" := DBool, "load" := DBool, "add" := DBool, "test" := DDouble]

  /** The argument tags each method refuses with a TypeError. */
  predicate BadArguments(name: string, args: seq<HostVal>) {
    if name == "save" || name == "load" || name == "test" then !Arg(args, 0).Str?
    else if name == "add" then !Arg(args, 0).Str? && (!Arg(args, 0).Bool? || !Arg(args, 1).Str?)
    else false
  }

  /** A constructor option: the number under `key` of an options object, or
      the default. */
  function OptionOr(args: seq<HostVal>, key: string, default: real): real {
    var a := Arg(args, 0);
    if a.Obj? && IsNumber(Field(a, key)) then NumberValue(Field(a, key)) else default
  }

  /** A constructor option given as a JavaScript number arrives as that
      number, whether V8 tags it Int32 or not; a missing option, or one that is
      not a number, leaves the default. */
  lemma OptionReadsHostNumber(fields: map<string, HostVal>, rest: seq<HostVal>, key: string, x: real, d: real)
    ensures key in fields && fields[key] == FromNumber(x) ==> OptionOr([Obj(fields)] + rest, key, d) == x
    ensures key !in fields || !IsNumber(fields[key]) ==> OptionOr([Obj(fields)] + rest, key, d) == d
  {
  }

  /** Without an options object as first argument every option is its
      default. */
  lemma OptionWithoutObject(args: seq<HostVal>, key: string, d: real)
    requires |args| == 0 || !args[0].Obj?
    ensures OptionOr(args, key, d) == d
  {
  }

  /** A boolean façade answer, returned without a TypeError. */
  function Answered<M, FV>(s: Step<M, FV, bool>): Reply<M, FV> {
    Reply(Owns(s.trainer), AnyBool(s.result), false, s.calls)
  }

  /** `OllJs<TrainMethod>::func`. */
  function Func<M, FV>(e: Engine<M, FV>, tag: TrainMethod, oll: Slot<M>, name: string, args: seq<HostVal>): (r: Reply<M, FV>)
    ensures r.Reply? ==> (r.threw <==> BadArguments(name, args))
    ensures r.Reply? && r.threw ==> r.oll == oll && r.calls == []
    ensures r.NullDeref? ==> oll.Null? && name in MethodTags && !BadArguments(name, args)
    ensures r.Reply? && name in MethodTags ==> Holds(r.ret, MethodTags[name])
    ensures r.Reply? && name !in MethodTags && name != "constructor" ==> r == Reply(oll, AnyInt(0), false, [])
    ensures r.Reply? && oll.Owns? && name in MethodTags ==>
              r.oll.Owns? && Accounted(e, oll.trainer, Step(r.oll.trainer, (), r.calls))
    ensures r.Reply? && name == "constructor" ==> r.oll.Owns? && r.oll.trainer.tag == tag
  {
    if name == "constructor" then
      var s := New(e, tag, OptionOr(args, "C", 1.0), OptionOr(args, "bias", 0.0));
      Reply(Owns(s.trainer), AnyInt(0), false, s.calls)
    else if name == "save" then
      if !Arg(args, 0).Str? then Reply(oll, AnyBool(false), true, [])
      else if oll.Null? then NullDeref
      else Answered(Save(e, oll.trainer, Arg(args, 0).s))
    else if name == "load" then
      if !Arg(args, 0).Str? then Reply(oll, AnyBool(false), true, [])
      else if oll.Null? then NullDeref
      else Answered(Load(e, oll.trainer, Arg(args, 0).s))
    else if name == "add" then
      if Arg(args, 0).Str? then
        if oll.Null? then NullDeref
        else Answered(AddSigned(e, oll.trainer, Arg(args, 0).s))
      else if !Arg(args, 0).Bool? then Reply(oll, AnyBool(false), true, [])
      else if !Arg(args, 1).Str? then Reply(oll, AnyBool(false), true, [])
      else if oll.Null? then NullDeref
      else Answered(AddSplit(e, oll.trainer, Arg(args, 0).b, Arg(args, 1).s))
    else if name == "test" then
      if !Arg(args, 0).Str? then Reply(oll, AnyDouble(NoScore), true, [])
      else if oll.Null? then NullDeref
      else
        var s := Test(e, oll.trainer, Arg(args, 0).s);
        Reply(Owns(s.trainer), AnyDouble(s.result), false, s.calls)
    else
      Reply(oll, AnyInt(0), false, [])
  }

  /** "constructor" builds a fresh façade whatever the instance held: `C` and
      `bias` come from an options object when they are numbers there, and are
      1 and 0 otherwise. */
  lemma ConstructorOptions<M, FV>(e: Engine<M, FV>, tag: TrainMethod, oll: Slot<M>, args: seq<HostVal>)
    ensures var r := Func(e, tag, oll, "constructor", args);
            && r.Reply? && !r.threw && r.ret == AnyInt(0)
            && r.oll == Owns(New(e, tag, OptionOr(args, "C", 1.0), OptionOr(args, "bias", 0.0)).trainer)
            && r.calls == [SetC(OptionOr(args, "C", 1.0)), SetBias(OptionOr(args, "bias", 0.0))]
    ensures !Arg(args, 0).Obj? ==> Func(e, tag, oll, "constructor", args).calls == [SetC(1.0), SetBias(0.0)]
  {
  }

  /** `save`/`load` with a string path return the façade's answer, which is
      false exactly when the engine reports failure; any other first argument
      throws and returns false without reaching the façade. */
  lemma SaveLoadDispatch<M, FV>(e: Engine<M, FV>, tag: TrainMethod, oll: Slot<M>, args: seq<HostVal>)
    ensures !Arg(args, 0).Str? ==>
              Func(e, tag, oll, "save", args) == Reply(oll, AnyBool(false), true, [])
              && Func(e, tag, oll, "load", args) == Reply(oll, AnyBool(false), true, [])
    ensures Arg(args, 0).Str? && oll.Owns? ==>
              && Func(e, tag, oll, "save", args).ret == AnyBool(e.save(oll.trainer.model, Arg(args, 0).s) != Failure)
              && Func(e, tag, oll, "save", args).oll == oll
              && Func(e, tag, oll, "load", args).ret == AnyBool(e.load(oll.trainer.model, Arg(args, 0).s).1 != Failure)
  {
  }

  /** `add` picks the façade overload from the first argument's tag: a string
      takes the signed form, a boolean followed by a string the split form;
      anything else throws and returns false with no engine call. */
  lemma AddDispatch<M, FV>(e: Engine<M, FV>, tag: TrainMethod, t: Trainer<M>, args: seq<HostVal>)
    ensures Arg(args, 0).Str? ==> Func(e, tag, Owns(t), "add", args) == Answered(AddSigned(e, t, Arg(args, 0).s))
    ensures Arg(args, 0).Bool? && Arg(args, 1).Str? ==>
              Func(e, tag, Owns(t), "add", args) == Answered(AddSplit(e, t, Arg(args, 0).b, Arg(args, 1).s))
    ensures !Arg(args, 0).Str? && !(Arg(args, 0).Bool? && Arg(args, 1).Str?) ==>
              Func(e, tag, Owns(t), "add", args) == Reply(Owns(t), AnyBool(false), true, [])
  {
  }

  /** With a string first argument `add` ignores everything after it. */
  lemma AddIgnoresRest<M, FV>(e: Engine<M, FV>, tag: TrainMethod, oll: Slot<M>, args: seq<HostVal>)
    requires Arg(args, 0).Str?
    ensures Func(e, tag, oll, "add", args) == Func(e, tag, oll, "add", [args[0]])
  {
  }

  /** `add(flag, data)` from the host trains exactly as `add(label + data)`. */
  lemma SplitAddIsSignedAdd<M, FV>(e: Engine<M, FV>, tag: TrainMethod, t: Trainer<M>, flag: bool, data: string)
    ensures Func(e, tag, Owns(t), "add", [Bool(flag), Str(data)])
            == Func(e, tag, Owns(t), "add", [Str(LabelPrefix(flag) + data)])
  {
    SplitIsSigned(e, t, flag, data);
  }

  /** `test` with a string returns the façade score widened to double and
      never trains; any other argument throws and returns -1. */
  lemma TestDispatch<M, FV>(e: Engine<M, FV>, tag: TrainMethod, t: Trainer<M>, args: seq<HostVal>)
    ensures !Arg(args, 0).Str? ==> Func(e, tag, Owns(t), "test", args) == Reply(Owns(t), AnyDouble(NoScore), true, [])
    ensures Arg(args, 0).Str? ==>
              var r := Func(e, tag, Owns(t), "test", args);
              && r == Reply(Owns(t), AnyDouble(Test(e, t, Arg(args, 0).s).result), false, Test(e, t, Arg(args, 0).s).calls)
              && Trainings(r.calls) == 0
  {
    if Arg(args, 0).Str? {
      TestNeverTrains(e, t, Arg(args, 0).s);
    }
  }

  // ---------------------------------------------------------------------------
  // Registration: set<TrainMethod> and init
  // ---------------------------------------------------------------------------

  /** A class placed on the module's exports: its template and the training
      method its instances use. */
  datatype Exported = Exported(template: ClassTemplate, tag: TrainMethod)

  /** The template `set<TrainMethod>` builds under `name`. */
  function OllTemplate(name: string): (c: ClassTemplate)
    ensures c.className == name && c.internalFields == 1
    ensures c.accessors == map[] && c.methods == MethodTags
  {
    AddFunc(AddFunc(AddFunc(AddFunc(NewClass(name), "save", DBool), "load", DBool), "add", DBool), "test", DDouble)
  }

  /** `set<TrainMethod>(target, name)`: exports the class under `name`. */
  function SetClass(target: map<string, Exported>, tag: TrainMethod, name: string): map<string, Exported> {
    target[name := Exported(OllTemplate(name), tag)]
  }

  /** The `set<TrainMethod>(target, name)` calls `init` makes, in order. */
  const Registrations: seq<(string, TrainMethod)> :=
    [("P", P), ("AP", AP), ("PA", PA), ("PA1", PA1), ("PA2", PA2), ("PAK", PAK), ("CW", CW), ("AL", AL)]

  /** The names a sequence of registrations exports. */
  function Names(regs: seq<(string, TrainMethod)>): set<string> {
    set i | 0 <= i < |regs| :: regs[i].0
  }

  /** No name is registered twice. */
  predicate DistinctNames(regs: seq<(string, TrainMethod)>) {
    forall i, j :: 0 <= i < j < |regs| ==> regs[i].0 != regs[j].0
  }

  /** Performs the registrations in order. */
  function RegisterAll(target: map<string, Exported>, regs: seq<(string, TrainMethod)>): map<string, Exported>
    decreases |regs|
  {
    if regs == [] then target else RegisterAll(SetClass(target, regs[0].1, regs[0].0), regs[1..])
  }

  /** `init(target)`. */
  function Init(target: map<string, Exported>): map<string, Exported> {
    RegisterAll(target, Registrations)
  }

  /** Splitting a registration sequence at its head keeps the names distinct
      and keeps the head's name out of the rest. */
  lemma DistinctNamesTail(regs: seq<(string, TrainMethod)>)
    requires regs != [] && DistinctNames(regs)
    ensures DistinctNames(regs[1..])
    ensures Names(regs) == {regs[0].0} + Names(regs[1..])
    ensures regs[0].0 !in Names(regs[1..])
  {
    var rest := regs[1..];
    forall i, j | 0 <= i < j < |rest| ensures rest[i].0 != rest[j].0 {
      assert rest[i] == regs[i + 1] && rest[j] == regs[j + 1];
    }
    forall n | n in Names(regs) ensures n in {regs[0].0} + Names(rest) {
      var i :| 0 <= i < |regs| && regs[i].0 == n;
      if i > 0 { assert rest[i - 1] == regs[i]; }
    }
    forall n | n in Names(rest) ensures n in Names(regs) {
      var i :| 0 <= i < |rest| && rest[i].0 == n;
      assert regs[i + 1] == rest[i];
    }
    forall i | 0 <= i < |rest| ensures rest[i].0 != regs[0].0 {
      assert rest[i] == regs[i + 1];
    }
  }

  /** Registering distinct names exports each under its own template and
      method, and leaves every other export as it was. */
  lemma {:induction false} RegisterAllExports(target: map<string, Exported>, regs: seq<(string, TrainMethod)>)
    requires DistinctNames(regs)
    ensures RegisterAll(target, regs).Keys == target.Keys + Names(regs)
    ensures forall i :: 0 <= i < |regs| ==> RegisterAll(target, regs)[regs[i].0] == Exported(OllTemplate(regs[i].0), regs[i].1)
    ensures forall n :: n in target && n !in Names(regs) ==> RegisterAll(target, regs)[n] == target[n]
    decreases |regs|
  {
    if regs != [] {
      var next := SetClass(target, regs[0].1, regs[0].0);
      var rest := regs[1..];
      DistinctNamesTail(regs);
      RegisterAllExports(next, rest);
      forall i | 0 <= i < |regs|
        ensures RegisterAll(target, regs)[regs[i].0] == Exported(OllTemplate(regs[i].0), regs[i].1)
      {
        if i > 0 { assert regs[i] == rest[i - 1]; }
      }
    }
  }

  /** `init` exports eight distinct names, one per training method (no two
      sharing a method), each with the same four methods and return types, and
      leaves other exports alone. */
  lemma InitExportsEightClasses(target: map<string, Exported>)
    ensures |Registrations| == 8 && DistinctNames(Registrations)
    ensures forall i, j :: 0 <= i < j < |Registrations| ==> Registrations[i].1 != Registrations[j].1
    ensures Init(target).Keys == target.Keys + Names(Registrations)
    ensures forall i :: 0 <= i < |Registrations| ==>
              Init(target)[Registrations[i].0] == Exported(OllTemplate(Registrations[i].0), Registrations[i].1)
    ensures forall n :: n in target && n !in Names(Registrations) ==> Init(target)[n] == target[n]
  {
    RegistrationTable();
    RegisterAllExports(target, Registrations);
  }

  /** The registration table: eight entries, no name or method twice. */
  lemma RegistrationTable()
    ensures |Registrations| == 8 && DistinctNames(Registrations)
    ensures forall i, j :: 0 <= i < j < |Registrations| ==> Registrations[i].1 != Registrations[j].1
  {
  }

  // ---------------------------------------------------------------------------
  // The dispatcher behind the generic exporter
  // ---------------------------------------------------------------------------

  /** A reply as the exporter sees it. */
  function AsInvoked<M, FV>(r: Reply<M, FV>): Invoked<Slot<M>> {
    if r.NullDeref? then Fault else Invoked(r.oll, r.ret, r.threw)
  }

  /** The hooks of `OllJs<TrainMethod>`: it overrides `func` and inherits every
      other hook from `ExportToJSIF`. */
  function OllHooks<M, FV>(e: Engine<M, FV>, tag: TrainMethod): Hooks<Slot<M>> {
    DefaultHooks<Slot<M>>().(func := (s: Slot<M>, name: string, args: seq<HostVal>) => AsInvoked(Func(e, tag, s, name, args)))
  }

  /** Each registered method, called through the exporter's trampoline at its
      registered return type on a constructed instance, returns: the
      `any_cast` to that type never fails, the trampoline returns a Boolean
      for save/load/add and a Number for test, and a TypeError is left pending
      exactly when the arguments are refused. */
  lemma MethodsUnboxAtRegisteredTypes<M, FV>(e: Engine<M, FV>, tag: TrainMethod, m: string, t: Trainer<M>, args: seq<HostVal>)
    requires m in MethodTags
    ensures var r := Marshal.Func(OllHooks(e, tag), MethodTags[m], Owns(t), m, args);
            && r.Returned?
            && r.state.Owns?
            && (m == "test" ==> IsNumber(r.v))
            && (m != "test" ==> r.v.Bool?)
            && (r.pending <==> BadArguments(m, args))
  {
    var reply := Func(e, tag, Owns(t), m, args);
    assert OllHooks(e, tag).func(Owns(t), m, args) == AsInvoked(reply);
    assert reply.Reply?;
    assert Holds(reply.ret, MethodTags[m]);
  }

  /** Every method of every class `init` exports unboxes at its registered
      type on a constructed instance. */
  lemma RegisteredCallsUnbox<M, FV>(e: Engine<M, FV>, target: map<string, Exported>, i: nat,
                                    m: string, t: Trainer<M>, args: seq<HostVal>)
    requires i < |Registrations| && m in MethodTags
    ensures Registrations[i].0 in Init(target)
    ensures var c := Init(target)[Registrations[i].0];
            && c.tag == Registrations[i].1
            && m in c.template.methods
            && Marshal.Func(OllHooks(e, c.tag), c.template.methods[m], Owns(t), m, args).Returned?
  {
    InitExportsEightClasses(target);
    var c := Init(target)[Registrations[i].0];
    assert c.template.methods == MethodTags;
    MethodsUnboxAtRegisteredTypes(e, c.tag, m, t, args);
  }

  /** Construction through the exporter, on a fresh receiver or again on one
      built before, always yields a constructed instance in internal field 0. */
  lemma ConstructionOwnsTrainer<M, FV>(e: Engine<M, FV>, tag: TrainMethod, b: Bridge<Slot<M>>,
                                       self: ObjId, p: Ptr, args: seq<HostVal>)
    requires p !in b.heap && (self !in b.objects || Reachable(b, self))
    ensures var r := Construct(b, OllHooks(e, tag), Null, self, p, args);
            && r.Constructed? && r.bridge.objects[self].slot == p
            && r.bridge.heap[p].Owns? && r.bridge.heap[p].trainer.tag == tag
  {
  }

  /** Every live instance has run "constructor". */
  predicate AllConstructed<M>(b: Bridge<Slot<M>>) {
    forall p | p in b.heap :: b.heap[p].Owns?
  }

  /** Within the bridge, a registered method called on a reachable object of a
      bridge whose instances are all constructed makes the trampoline return
      (no `bad_any_cast`, no fault), with a TypeError pending exactly when the
      arguments are refused, and keeps every instance constructed. */
  lemma InvokeRegisteredReturns<M, FV>(e: Engine<M, FV>, tag: TrainMethod, b: Bridge<Slot<M>>,
                                       o: ObjId, m: string, args: seq<HostVal>)
    requires Inv(b) && Reachable(b, o) && AllConstructed(b)
    requires m in MethodTags
    ensures var (b2, c) := Invoke(b, OllHooks(e, tag), MethodTags[m], o, m, args);
            && c.Returned?
            && (c.pending <==> BadArguments(m, args))
            && Inv(b2) && AllConstructed(b2)
  {
    ReachableIsLive(b, o);
    MethodsUnboxAtRegisteredTypes(e, tag, m, b.heap[b.objects[o].slot].trainer, args);
  }

  /** Construction (as written or checked) and finalisation keep every live
      instance constructed. */
  lemma LifecycleKeepsConstructed<M, FV>(e: Engine<M, FV>, tag: TrainMethod, b: Bridge<Slot<M>>,
                                         self: ObjId, p: Ptr, args: seq<HostVal>, o: ObjId, q: Ptr)
    requires AllConstructed(b)
    ensures p !in b.heap && (self !in b.objects || Reachable(b, self)) ==>
              && AllConstructed(Construct(b, OllHooks(e, tag), Null, self, p, args).bridge)
              && (self !in b.objects ==> AllConstructed(ConstructChecked(b, OllHooks(e, tag), Null, self, p, args).bridge))
    ensures o in b.objects && q in b.objects[o].pending ==> AllConstructed(Destruct(b, o, q))
  {
  }
}

=== FILE: trainer.dfy ===
/** The trainer façade `OLL<TrainMethod>`: it owns one engine model, prefixes
    the label the engine's line format expects, and turns the engine's status
    codes into booleans or the -1 score sentinel. */
module Trainer {
  import opened Engine

  /** An `OLL<TrainMethod>`: its method tag and its engine model `ol_`. */
  datatype Trainer<M> = Trainer(tag: TrainMethod, model: M)

  /** One façade call: the trainer afterwards, what the call returned, and the
      engine calls it made, in order. */
  datatype Step<M, FV, R> = Step(trainer: Trainer<M>, result: R, calls: seq<Call<FV>>)

  /** The line prefix that labels split-form training data. */
  function LabelPrefix(flag: bool): string {
    if flag then "+1 " else "-1 "
  }

  /** The line prefix that marks test data as unlabelled. */
  const UnlabelledPrefix: string := "0 "

  /** The status `parseLine` and `save`/`load` use for failure. */
  const Failure: int := -1

  /** The score `test` answers for a line the engine cannot parse. */
  const NoScore: real := -1.0

  /** The trainer changes only through the engine calls it records, and keeps
      its method tag. */
  ghost predicate Accounted<M, FV, R>(e: Engine<M, FV>, t: Trainer<M>, r: Step<M, FV, R>) {
    r.trainer.tag == t.tag && r.trainer.model == Replay(e, t.model, r.calls)
  }

  /** What both forms of `add` do with the line `text` they hand to the engine:
      parse it; on failure answer false having made no other call; on success
      train once on the parsed example with the trainer's own tag and answer
      true. */
  ghost predicate TrainsOn<M, FV>(e: Engine<M, FV>, t: Trainer<M>, text: string, r: Step<M, FV, bool>) {
    var p := e.parseLine(t.model, text);
    && Accounted(e, t, r)
    && (r.result <==> p.status != Failure)
    && (r.result ==> r.calls == [ParseLine(text), TrainExample(t.tag, p.fv, p.y)])
    && (!r.result ==> r.calls == [ParseLine(text)])
  }

  /** `OLL(C, bias)`: a default-constructed engine model given `C` and then
      `bias`, which default to 1 and 0. */
  function New<M, FV>(e: Engine<M, FV>, tag: TrainMethod, c: real := 1.0, bias: real := 0.0): (r: Step<M, FV, ()>)
    ensures r.trainer.tag == tag
    ensures r.calls == [SetC(c), SetBias(bias)]
    ensures r.trainer.model == Replay(e, e.empty, r.calls)
  {
    ReplayPair(e, e.empty, SetC(c), SetBias(bias));
    Step(Trainer(tag, e.setBias(e.setC(e.empty, c), bias)), (), [SetC(c), SetBias(bias)])
  }

  /** `save(file_name)`: false exactly when the engine reports failure; the
      model is untouched. */
  function Save<M, FV>(e: Engine<M, FV>, t: Trainer<M>, path: string): (r: Step<M, FV, bool>)
    ensures r.result <==> e.save(t.model, path) != Failure
    ensures r.calls == [SaveTo(path)] && r.trainer == t
    ensures Accounted(e, t, r)
  {
    if e.save(t.model, path) == Failure then Step(t, false, [SaveTo(path)])
    else Step(t, true, [SaveTo(path)])
  }

  /** `load(file_name)`: false exactly when the engine reports failure; the
      model is whatever the engine's load leaves, on either outcome. */
  function Load<M, FV>(e: Engine<M, FV>, t: Trainer<M>, path: string): (r: Step<M, FV, bool>)
    ensures r.result <==> e.load(t.model, path).1 != Failure
    ensures r.calls == [LoadFrom(path)]
    ensures Accounted(e, t, r)
  {
    var (m, status) := e.load(t.model, path);
    if status == Failure then Step(Trainer(t.tag, m), false, [LoadFrom(path)])
    else Step(Trainer(t.tag, m), true, [LoadFrom(path)])
  }

  /** `add(flag, data)`: the split form, which writes the label itself. */
  function AddSplit<M, FV>(e: Engine<M, FV>, t: Trainer<M>, flag: bool, data: string): (r: Step<M, FV, bool>)
    ensures TrainsOn(e, t, LabelPrefix(flag) + data, r)
  {
    var text := LabelPrefix(flag) + data;
    var p := e.parseLine(t.model, text);
    ReplaySingle(e, t.model, ParseLine(text));
    ReplayPair(e, t.model, ParseLine(text), TrainExample(t.tag, p.fv, p.y));
    if p.status == Failure then Step(t, false, [ParseLine(text)])
    else Step(Trainer(t.tag, e.trainExample(t.model, t.tag, p.fv, p.y)), true,
              [ParseLine(text), TrainExample(t.tag, p.fv, p.y)])
  }

  /** `add(data)`: the signed form, whose line carries its own label. */
  function AddSigned<M, FV>(e: Engine<M, FV>, t: Trainer<M>, data: string): (r: Step<M, FV, bool>)
    ensures TrainsOn(e, t, data, r)
  {
    var p := e.parseLine(t.model, data);
    ReplaySingle(e, t.model, ParseLine(data));
    ReplayPair(e, t.model, ParseLine(data), TrainExample(t.tag, p.fv, p.y));
    if p.status == Failure then Step(t, false, [ParseLine(data)])
    else Step(Trainer(t.tag, e.trainExample(t.model, t.tag, p.fv, p.y)), true,
              [ParseLine(data), TrainExample(t.tag, p.fv, p.y)])
  }

  /** `test(data)`: scores the line marked unlabelled; a line the engine cannot
      parse scores -1 without reaching `classify`. */
  function Test<M, FV>(e: Engine<M, FV>, t: Trainer<M>, data: string): (r: Step<M, FV, real>)
    ensures var p := e.parseLine(t.model, UnlabelledPrefix + data);
            && (p.status == Failure ==> r.result == NoScore && r.calls == [ParseLine(UnlabelledPrefix + data)])
            && (p.status != Failure ==> r.result == e.classify(t.model, p.fv)
                                        && r.calls == [ParseLine(UnlabelledPrefix + data), Classify(p.fv)])
    ensures Accounted(e, t, r)
  {
    var text := UnlabelledPrefix + data;
    var p := e.parseLine(t.model, text);
    ReplaySingle(e, t.model, ParseLine(text));
    ReplayPair(e, t.model, ParseLine(text), Classify(p.fv));
    if p.status == Failure then Step(t, NoScore, [ParseLine(text)])
    else Step(t, e.classify(t.model, p.fv), [ParseLine(text), Classify(p.fv)])
  }

  /** A successful `add` trains exactly once, a failed one not at all. */
  lemma AddTrainsOnceOnSuccess<M, FV>(e: Engine<M, FV>, t: Trainer<M>, text: string, r: Step<M, FV, bool>)
    requires TrainsOn(e, t, text, r)
    ensures Trainings(r.calls) == (if r.result then 1 else 0)
    ensures !r.result ==> r.trainer == t
  {
    var p := e.parseLine(t.model, text);
    TrainingsShort(ParseLine(text), TrainExample(t.tag, p.fv, p.y));
    ReplaySingle(e, t.model, ParseLine(text));
  }

  /** The split form is the signed form applied to the labelled line:
      `add(true, d)` is `add("+1 " + d)` and `add(false, d)` is
      `add("-1 " + d)`, in result, engine calls and model. */
  lemma SplitIsSigned<M, FV>(e: Engine<M, FV>, t: Trainer<M>, flag: bool, data: string)
    ensures AddSplit(e, t, flag, data) == AddSigned(e, t, LabelPrefix(flag) + data)
  {
  }

  /** `test` never trains and never changes the trainer. */
  lemma TestNeverTrains<M, FV>(e: Engine<M, FV>, t: Trainer<M>, data: string)
    ensures Trainings(Test(e, t, data).calls) == 0
    ensures Test(e, t, data).trainer == t
  {
    var r := Test(e, t, data);
    NoTrainings(r.calls);
  }

  /** A host-level request to the façade. */
  datatype Request = SaveReq(path: string) | LoadReq(path: string)
                   | AddSplitReq(flag: bool, data: string) | AddSignedReq(data: string)
                   | TestReq(data: string)

  /** A façade answer: the boolean of save/load/add or the score of test. */
  datatype Answer = Flag(ok: bool) | Score(x: real)

  /** Serves one request. */
  function Serve<M, FV>(e: Engine<M, FV>, t: Trainer<M>, q: Request): (r: Step<M, FV, Answer>)
    ensures Accounted(e, t, r)
    ensures Trainings(r.calls) == (if (q.AddSplitReq? || q.AddSignedReq?) && r.result == Flag(true) then 1 else 0)
    ensures q.TestReq? <==> r.result.Score?
  {
    match q
    case SaveReq(path) =>
      var s := Save(e, t, path);
      NoTrainings(s.calls);
      Step(s.trainer, Flag(s.result), s.calls)
    case LoadReq(path) =>
      var s := Load(e, t, path);
      NoTrainings(s.calls);
      Step(s.trainer, Flag(s.result), s.calls)
    case AddSplitReq(flag, data) =>
      var s := AddSplit(e, t, flag, data);
      AddTrainsOnceOnSuccess(e, t, LabelPrefix(flag) + data, s);
      Step(s.trainer, Flag(s.result), s.calls)
    case AddSignedReq(data) =>
      var s := AddSigned(e, t, data);
      AddTrainsOnceOnSuccess(e, t, data, s);
      Step(s.trainer, Flag(s.result), s.calls)
    case TestReq(data) =>
      var s := Test(e, t, data);
      TestNeverTrains(e, t, data);
      Step(s.trainer, Score(s.result), s.calls)
  }

  /** The requests whose answer reports a successful training. */
  function Successes(qs: seq<Request>, answers: seq<Answer>): nat
    requires |qs| == |answers|
    decreases |qs|
  {
    if qs == [] then 0
    else (if (qs[0].AddSplitReq? || qs[0].AddSignedReq?) && answers[0] == Flag(true) then 1 else 0)
         + Successes(qs[1..], answers[1..])
  }

  /** Serves a sequence of requests in order, threading the trainer through. */
  function Run<M, FV>(e: Engine<M, FV>, t: Trainer<M>, qs: seq<Request>): (r: Step<M, FV, seq<Answer>>)
    ensures Accounted(e, t, r)
    ensures |r.result| == |qs|
    ensures Trainings(r.calls) == Successes(qs, r.result)
    decreases |qs|
  {
    if qs == [] then Step(t, [], [])
    else
      var first := Serve(e, t, qs[0]);
      var rest := Run(e, first.trainer, qs[1..]);
      ReplayAppend(e, t.model, first.calls, rest.calls);
      TrainingsAppend(first.calls, rest.calls);
      var r := Step(rest.trainer, [first.result] + rest.result, first.calls + rest.calls);
      assert r.result[1..] == rest.result;
      r
  }

  /** A session of tests only leaves the trainer exactly as it was. */
  lemma {:induction false} TestsLeaveTrainer<M, FV>(e: Engine<M, FV>, t: Trainer<M>, qs: seq<Request>)
    requires forall i :: 0 <= i < |qs| ==> qs[i].TestReq?
    ensures Run(e, t, qs).trainer == t
    decreases |qs|
  {
    if qs != [] {
      TestNeverTrains(e, t, qs[0].data);
      TestsLeaveTrainer(e, t, qs[1..]);
    }
  }
}
